=== FILE: README.md ===
# Crop geometry of the video cropper

This project models the geometry behind an in-browser video cropper. A crop box is laid over a playing video and a
canvas shows the cropped region live. The model covers three pieces:

- **The `useCropper` hook.** Every event handler is a pure transition on an immutable `Cropper` record
  (`x`, `y`, `width`, `height`, `dragging`, `resizing`). The handlers are: sizing the box to the container and the
  selected ratio, pressing, moving and releasing the pointer.
- **The contain-fit inverse mapper of `useCanvasPreview`.** It finds where a video shown with contain fit sits inside
  its container (render size, letterbox or pillarbox offsets, scale). It then carries the on-screen crop rectangle
  into the video's intrinsic pixels. The result is the source rectangle of the preview draw.
- **The constants, and the earlier iteration in `components/VideoVerse.jsx`.** The constants are the ratio table,
  the default label, the empty initial record and the frame rate. `VideoVerse` is the iteration the app actually
  mounts (`src/index.tsx` renders `components/App`, which renders it). It has its own ratio table, a two-axis drag, a
  resize with a 50-pixel minimum width, and a ratio-driven video height.

Every coordinate is a Dafny `real`. DOM measurements are plain inputs: `clientWidth`, `clientHeight`, the bounding
rectangle and the video's intrinsic size. A missing DOM reference is `None`.

Modules:

- `CropBox`: the shared `Cropper` record, `Size`, `Flag`, `Option`, and `Max`/`Min` (as `Math.max`/`Math.min`).
- `RatioLabel`: an independent reading of a label `"a:b"` as the number a/b. Both ratio tables are proved against it.
- `Constants`: `src/VideoPlayer/constant.js`.
- `UseCropper`: `src/VideoPlayer/hooks/useCropper.js`.
- `CanvasPreview`: `src/VideoPlayer/hooks/useCanvasPreview.js`.
- `VideoVerse`: `src/components/VideoVerse.jsx`.

Behaviours of the code that a reader might not expect:

- On a ratio change the box is re-sized and re-centred through `updateCropperDimensions`. The old `x` is not kept.
  Re-selecting the label already held changes nothing.
- The source rectangle is not clamped to the video frame. `CanvasPreview.SourceRect` states exactly when it stays
  inside.
- In `VideoVerse` the drag applies `min` outermost, so `x` goes negative when the box is wider than the container.
- In `VideoVerse` the resize handle is a child of the box. A press on it bubbles to the box, and the box's
  `{...cropper, dragging: true}` replaces the handle's `{...cropper, resizing: true}`. So `resizing` is never raised
  from the overlay, and the resize branch of the move handler, including the both-flags case, is reached only from
  a record that already has `resizing` set.

## Model

| member | source | states |
|---|---|---|
| Constants.Lookup | src/VideoPlayer/constant.js:1-8 | a label has a ratio exactly when it is a key; that ratio is positive and equals the label "a:b" read as a/b |
| Constants.TableIsExact | src/VideoPlayer/constant.js:1-8 | every entry of the ratio table is positive and is exactly a/b for its label "a:b" (so '9:18' is 1/2 and '9:16' is 9/16) |
| Constants.DefaultIsKey | src/VideoPlayer/constant.js:3-11 | the default label '9:16' is a key of the table, so the first lookup is defined, and names 9/16 |
| Constants.TickPeriodMs | src/VideoPlayer/constant.js:10 | at 30 frames per second the tick period p satisfies p × 30 = 1000 ms |
| UseCropper.InitialHook | src/VideoPlayer/hooks/useCropper.js:9-10 | the hook starts with an empty box at the origin, no flag raised, and a ratio label that is in the table |
| UseCropper.UpdateCropperDimensions | src/VideoPlayer/hooks/useCropper.js:12-30 | with no container, no video or no start the state is unchanged. Otherwise: the height is the larger of the container and video heights; width = height × ratio; the box is centred (x + width/2 = containerWidth/2); y = 0; x ≥ 0 exactly when the box fits; flags are untouched |
| UseCropper.SetAspectRatio | src/VideoPlayer/hooks/useCropper.js:32-36 | re-selecting the held label leaves the hook unchanged. Selecting another label records it; when the sizing guard passes the box becomes the full-height, centred, top-aligned box of `UpdateCropperDimensions` for the new ratio with flags kept, and otherwise the box is unchanged |
| UseCropper.SelectingRatioKeepsHeight | src/VideoPlayer/hooks/useCropper.js:17-36 | switching the ratio of a box sized for the current label keeps height, y and flags, and the widths are in the ratio of the two labels; re-selecting the current label leaves the hook unchanged |
| UseCropper.HandleMouseDown | src/VideoPlayer/hooks/useCropper.js:38-41 | the named flag is raised; the other flag and the rectangle are unchanged |
| UseCropper.DragX | src/VideoPlayer/hooks/useCropper.js:47-55 | the dragged x is never negative. It is at most containerWidth − width when the box fits, and 0 when the box is at least as wide as the container. It centres the box under the pointer whenever that position is allowed |
| UseCropper.HandleMouseMove | src/VideoPlayer/hooks/useCropper.js:43-64 | without `dragging` nothing changes (`resizing` alone has no effect). During a drag only x moves, y becomes 0, and size and flags are kept |
| UseCropper.HandleMouseUp | src/VideoPlayer/hooks/useCropper.js:66-68 | both flags are cleared whatever they were; the rectangle is unchanged |
| UseCropper.DragIsNearest | src/VideoPlayer/hooks/useCropper.js:49-55 | when the box fits, the dragged x is the point of [0, containerWidth − width] nearest the pointer-centred position |
| UseCropper.DragsStayInside | src/VideoPlayer/hooks/useCropper.js:43-64 | after any non-empty run of motions during a drag, a box that fits lies inside the container (0 ≤ x ≤ containerWidth − width) with y = 0; size and flags are kept |
| UseCropper.MovesWithoutDragAreIgnored | src/VideoPlayer/hooks/useCropper.js:45 | any run of motions without `dragging` leaves the state unchanged |
| UseCropper.RatioChangeKeepsHeight | src/VideoPlayer/hooks/useCropper.js:17-36 | re-sizing for a new ratio with the same container and video keeps height, y and flags. Only width and x change, and the widths are in the ratio of the labels. The result does not depend on the previous ratio |
| UseCropper.MouseUpIsIdempotent | src/VideoPlayer/hooks/useCropper.js:38-68 | releasing twice equals releasing once; press-then-release equals release |
| CanvasPreview.Fit | src/VideoPlayer/hooks/useCanvasPreview.js:18-41 | if the video is relatively wider: full container width, offsetX = 0, render height < container height, offsetY > 0. Otherwise: full container height, offsetY = 0, render width ≤ container width, offsetX ≥ 0. In both cases the box is centred (2·offset + render = container), keeps the video's aspect, and scaleX = scaleY > 0, taking the render box onto the video frame |
| CanvasPreview.ToSource | src/VideoPlayer/hooks/useCanvasPreview.js:43-46 | the right and bottom edges of the source are the crop's right and bottom edges, shifted by the offsets and scaled |
| CanvasPreview.SourceRect | src/VideoPlayer/hooks/useCanvasPreview.js:18-46 | the render box's left/right (top/bottom) edges map to 0 and the video width (height). The source lies inside [0, videoWidth] × [0, videoHeight] exactly when the crop lies inside the render box |
| CanvasPreview.MapsRenderBoxOntoFrame | src/VideoPlayer/hooks/useCanvasPreview.js:40-46 | for any positive scales that take the render box onto the frame, the affine map sends edges to edges and preserves containment both ways |
| CanvasPreview.UpdateCanvasPreview | src/VideoPlayer/hooks/useCanvasPreview.js:10-61 | a draw happens exactly when canvas, video and container are all present. The canvas is then sized to the crop's width × height, and the mapped source is drawn onto the whole canvas |
| CanvasPreview.RoundTrip | src/VideoPlayer/hooks/useCanvasPreview.js:43-46 | mapping screen to source and back, or source to screen and back, gives the identity |
| CanvasPreview.EqualAspectsFill | src/VideoPlayer/hooks/useCanvasPreview.js:28-41 | equal aspects take the else branch: no offsets, the render box is the container, and both scales are videoWidth/containerWidth |
| CanvasPreview.LandscapeExample | src/VideoPlayer/hooks/useCanvasPreview.js:23-46 | 1920×1080 in 800×450 gives scale 2.4, and the crop (100, 0, 200, 450) reads source (240, 0, 480, 1080) |
| CanvasPreview.PortraitExample | src/VideoPlayer/hooks/useCanvasPreview.js:23-38 | 1080×1920 in 800×450 is pillarboxed: render 253.125 × 450 at offsetX 273.4375 |
| VideoVerse.TableIsExact | src/components/VideoVerse.jsx:12-17 | the selector's table maps '1:1', '4:3', '16:9', '9:16' to positive values, each exactly a/b for its label |
| VideoVerse.HandleMouseDown | src/components/VideoVerse.jsx:103-106 | the named flag is raised; the other flag and the rectangle are unchanged |
| VideoVerse.DragAxis | src/components/VideoVerse.jsx:116-123 | the dragged coordinate is always at most containerSize − size. It is non-negative exactly when the box fits. It centres the box under the pointer whenever that position is allowed. A box larger than the container is placed at containerSize − size |
| VideoVerse.DragUpdate | src/components/VideoVerse.jsx:115-125 | a drag sets x and y to `DragAxis` of the pointer on each axis, so the box follows the pointer within the clamps; size and flags are kept and x, y are bounded by the container's far edges |
| VideoVerse.ResizeWidth | src/components/VideoVerse.jsx:128-131 | the new width is at most containerWidth − x. It is at least 50 whenever that room is at least 50. It reaches the pointer when the pointer is in range. With less than 50 of room it is exactly the room; with the pointer at most 50 past x and room for 50 it is exactly 50 |
| VideoVerse.ResizeHeight | src/components/VideoVerse.jsx:132-139 | with no label the box is square. For a known label other than '16:9', height × ratio = width |
| VideoVerse.ResizeUpdate | src/components/VideoVerse.jsx:127-141 | a resize keeps x, y and flags. The width follows the resize rule, and the height equals the width because the record has no ratio field |
| VideoVerse.HandleMouseMove | src/components/VideoVerse.jsx:108-142 | no flag: no change. Drag alone: the drag update. Resize set: the resize update, built from the same pre-move record, replaces any drag. The flags are kept |
| VideoVerse.HandleMouseUp | src/components/VideoVerse.jsx:144-146 | both flags are cleared; the rectangle is unchanged |
| VideoVerse.HandleAspectRatioChange | src/components/VideoVerse.jsx:38-49 | the selection becomes the chosen label. A video height is set exactly when video and container are present, and then height × ratio = container width |
| VideoVerse.ResizeHeightAgainstTable | src/components/VideoVerse.jsx:132-139 | the resize height keeps the table's ratio for '1:1', '4:3' and '9:16', but gives '16:9' a square |
| VideoVerse.ResizeWinsOverDrag | src/components/VideoVerse.jsx:115-141 | with both flags raised the box keeps its position and becomes square; the drag is lost |
| VideoVerse.DragStaysInsideWhenFits | src/components/VideoVerse.jsx:115-125 | a drag keeps a fitting box inside the container on each axis. A box wider than the container ends with x < 0 |
| VideoVerse.PressResizeHandle | src/components/VideoVerse.jsx:275-291 | a press on the resize handle, bubbling to the box, raises `dragging`, leaves `resizing` as it was and keeps the rectangle |
| VideoVerse.NeverResizes | src/components/VideoVerse.jsx:103-146 | no run of presses, moves and releases raises `resizing` on a record that does not have it |
| VideoVerse.InitialStateNeverResizes | src/components/VideoVerse.jsx:27-35 | the initial label is a key of the table, the initial record has no flag raised, and from it no run of events ever resizes |
| VideoVerse.DragsAgreeWhenFits | src/components/VideoVerse.jsx:116-123 | for a box that fits the container, the mounted drag (min outermost) equals the hook's drag (max outermost), so it is the nearest allowed point to the pointer-centred position |

## Left out

- Pixel copying (`ctx.drawImage`) in both iterations. Only the rectangles `useCanvasPreview` passes to it are
  modelled. The `VideoVerse` preview, which draws the crop rectangle unmapped every 50 ms, is not modelled.
- CanvasPreview.UpdateCanvasPreview: the canvas size is the crop's real width and height. The DOM's truncation of
  `canvas.width`/`canvas.height` to whole pixels is not modelled.
- DOM measurement (`getBoundingClientRect`, `clientWidth`, `clientHeight`, `offsetWidth`, `videoWidth`): taken as
  inputs. Writing `video.style.height` is returned as a value.
- Preview timing: the worker in `src/VideoPlayer/canvasWorker.js`, the `setInterval` effects and worker start/stop.
  Their point is scheduling. Only the frame-rate constant and its tick period are modelled.
- Playback transport (`useVideoState.js`, and the play, volume, rate, progress and end handlers of `VideoVerse`):
  thin wrappers over the media element.
- React wiring in `VideoPlayer.jsx`: effect registration, the `loadedmetadata` listener and rendering. That file
  calls `useCropper` without `startCropper`, so its sizing guard always fires there. The model takes `startCropper`
  as an explicit boolean.
- State capture: the hook's move handler reads `width` from the rendered `cropper` but writes through `prev`. The
  model applies each handler to one record, as if no update is pending.
- IEEE-754 effects: rounding, and NaN or Infinity from zero sizes or missing ratio keys. Sizes are real. Positive
  container and video sizes, and key membership wherever a lookup is reached, are preconditions. The selectors only
  offer table keys.
- Effects with no geometry: the log line in `updateCropperDimensions` and `preventDefault` in the press handlers.
- UI with no geometry: `DropDown.jsx`, `Tabs.jsx`, `ButtonGrid.jsx`, `PlaceHolder.jsx`, `CropOverlay.jsx`,
  `VideoControls.jsx`, both `App.jsx` files, `index.tsx`, build configuration.
- I/O: `downloadJSON` in `src/util.js` exports metadata as a downloaded file, and `src/utils/getAxios.js` is a
  network client. No metadata recording code exists in these sources.

=== FILE: canvas_preview.dfy ===
/** The geometry of src/VideoPlayer/hooks/useCanvasPreview.js: how a video
    shown with contain fit sits inside its container, and how the on-screen
    crop rectangle is carried into the video's intrinsic pixel space. The
    pixel copy itself is not modelled; only the rectangles handed to it are. */
module CanvasPreview {
  import opened CropBox

  /** Where and at what scale the video frame is drawn inside the container. */
  datatype RenderGeometry = RenderGeometry(
    renderWidth: real,
    renderHeight: real,
    offsetX: real,
    offsetY: real,
    scaleX: real,
    scaleY: real)

  /** An axis-aligned rectangle. */
  datatype Rect = Rect(x: real, y: real, width: real, height: real)

  /** The arguments of one preview draw: the canvas size, the source
      rectangle in video pixels and the destination rectangle on the canvas. */
  datatype Draw = Draw(canvasWidth: real, canvasHeight: real, source: Rect, dest: Rect)

  predicate Positive(s: Size)
  {
    s.width > 0.0 && s.height > 0.0
  }

  /** The branch condition: the video's aspect exceeds the container's. */
  predicate VideoWider(container: Size, video: Size)
    requires Positive(container) && Positive(video)
  {
    video.width / video.height > container.width / container.height
  }

  /** Contain fit: the largest box with the video's aspect that fits the
      container, centred in it, and the factors from that box to video pixels. */
  function Fit(container: Size, video: Size): (g: RenderGeometry)
    requires Positive(container) && Positive(video)
    ensures VideoWider(container, video) ==>
      && g.renderWidth == container.width && g.offsetX == 0.0
      && g.renderHeight < container.height && g.offsetY > 0.0
    ensures !VideoWider(container, video) ==>
      && g.renderHeight == container.height && g.offsetY == 0.0
      && g.renderWidth <= container.width && g.offsetX >= 0.0
    ensures 2.0 * g.offsetX + g.renderWidth == container.width
    ensures 2.0 * g.offsetY + g.renderHeight == container.height
    ensures g.renderWidth > 0.0 && g.renderHeight > 0.0
    ensures g.renderWidth * video.height == g.renderHeight * video.width
    ensures g.scaleX == g.scaleY && g.scaleX > 0.0
    ensures g.scaleX * g.renderWidth == video.width && g.scaleY * g.renderHeight == video.height
  {
    var videoAspect := video.width / video.height;
    var containerAspect := container.width / container.height;
    var (renderWidth, renderHeight, offsetX, offsetY) :=
      if videoAspect > containerAspect then
        var h := container.width / videoAspect;
        (container.width, h, 0.0, (container.height - h) / 2.0)
      else
        var w := container.height * videoAspect;
        (w, container.height, (container.width - w) / 2.0, 0.0);
    RenderGeometry(renderWidth, renderHeight, offsetX, offsetY,
                   video.width / renderWidth, video.height / renderHeight)
  }

  /** The crop rectangle lies within the drawn video box (and has no negative side). */
  predicate InsideRender(crop: Cropper, g: RenderGeometry)
  {
    && 0.0 <= crop.width && 0.0 <= crop.height
    && g.offsetX <= crop.x && crop.x + crop.width <= g.offsetX + g.renderWidth
    && g.offsetY <= crop.y && crop.y + crop.height <= g.offsetY + g.renderHeight
  }

  /** The rectangle lies within the video's intrinsic frame [0, w] x [0, h]. */
  predicate InsideFrame(r: Rect, video: Size)
  {
    && 0.0 <= r.width && 0.0 <= r.height
    && 0.0 <= r.x && r.x + r.width <= video.width
    && 0.0 <= r.y && r.y + r.height <= video.height
  }

  /** Carries a container-space rectangle into video pixels: shift by the
      letterbox offsets, then scale. */
  function ToSource(crop: Cropper, g: RenderGeometry): (r: Rect)
    ensures r.x + r.width == (crop.x + crop.width - g.offsetX) * g.scaleX
    ensures r.y + r.height == (crop.y + crop.height - g.offsetY) * g.scaleY
  {
    Rect((crop.x - g.offsetX) * g.scaleX, (crop.y - g.offsetY) * g.scaleY,
         crop.width * g.scaleX, crop.height * g.scaleY)
  }

  /** The inverse direction: a rectangle of video pixels as drawn on screen. */
  function ToScreen(r: Rect, g: RenderGeometry): (s: Rect)
    requires g.scaleX > 0.0 && g.scaleY > 0.0
  {
    Rect(r.x / g.scaleX + g.offsetX, r.y / g.scaleY + g.offsetY, r.width / g.scaleX, r.height / g.scaleY)
  }

  /** The source rectangle of one preview frame. Its edges are where the crop's
      edges fall in the video: the render box's left and right edges land on
      0 and the video width (likewise vertically), and the source lies inside
      the video frame exactly when the crop lies inside the render box. It is
      not clamped. */
  function SourceRect(crop: Cropper, container: Size, video: Size): (r: Rect)
    requires Positive(container) && Positive(video)
    ensures var g := Fit(container, video);
      && (crop.x == g.offsetX ==> r.x == 0.0)
      && (crop.x + crop.width == g.offsetX + g.renderWidth ==> r.x + r.width == video.width)
      && (crop.y == g.offsetY ==> r.y == 0.0)
      && (crop.y + crop.height == g.offsetY + g.renderHeight ==> r.y + r.height == video.height)
      && (InsideFrame(r, video) <==> InsideRender(crop, g))
  {
    var g := Fit(container, video);
    MapsRenderBoxOntoFrame(crop, g, video);
    ToSource(crop, g)
  }

  /** For any geometry whose positive scales take the render box onto the
      video frame, the crop's edges map onto the frame's edges and containment
      is preserved in both directions. */
  lemma MapsRenderBoxOntoFrame(crop: Cropper, g: RenderGeometry, video: Size)
    requires g.scaleX > 0.0 && g.scaleY > 0.0
    requires g.scaleX * g.renderWidth == video.width && g.scaleY * g.renderHeight == video.height
    ensures var r := ToSource(crop, g);
      && (crop.x == g.offsetX ==> r.x == 0.0)
      && (crop.x + crop.width == g.offsetX + g.renderWidth ==> r.x + r.width == video.width)
      && (crop.y == g.offsetY ==> r.y == 0.0)
      && (crop.y + crop.height == g.offsetY + g.renderHeight ==> r.y + r.height == video.height)
      && (InsideFrame(r, video) <==> InsideRender(crop, g))
  {
  }

  /** One tick of the preview: nothing when the canvas, the video or the
      container is missing; otherwise the canvas takes the crop's size and the
      source rectangle is drawn onto the whole canvas. */
  function UpdateCanvasPreview(canvas: bool, video: Option<Size>, container: Option<Size>,
                               crop: Cropper): (r: Option<Draw>)
    requires canvas && video.Some? && container.Some? ==> Positive(video.value) && Positive(container.value)
    ensures r.Some? <==> canvas && video.Some? && container.Some?
    ensures r.Some? ==>
      && r.value.canvasWidth == crop.width && r.value.canvasHeight == crop.height
      && r.value.dest == Rect(0.0, 0.0, crop.width, crop.height)
      && r.value.source == SourceRect(crop, container.value, video.value)
  {
    if !canvas || video.None? || container.None? then None
    else
      Some(Draw(crop.width, crop.height, SourceRect(crop, container.value, video.value),
                Rect(0.0, 0.0, crop.width, crop.height)))
  }

  /** Screen to source and back is the identity, in both orders, for any
      geometry with positive scales. */
  lemma RoundTrip(crop: Cropper, r: Rect, g: RenderGeometry)
    requires g.scaleX > 0.0 && g.scaleY > 0.0
    ensures ToScreen(ToSource(crop, g), g) == Rect(crop.x, crop.y, crop.width, crop.height)
    ensures var back := ToScreen(r, g);
      ToSource(Cropper(back.x, back.y, back.width, back.height, false, false), g) == r
  {
  }

  /** When the two aspects agree the else branch is taken: the video fills the
      container, with no offsets and one scale of video width over container width. */
  lemma EqualAspectsFill(container: Size, video: Size)
    requires Positive(container) && Positive(video)
    requires video.width * container.height == video.height * container.width
    ensures !VideoWider(container, video)
    ensures var g := Fit(container, video);
      && g.offsetX == 0.0 && g.offsetY == 0.0
      && g.renderWidth == container.width && g.renderHeight == container.height
      && g.scaleX == g.scaleY == video.width / container.width
  {
  }

  /** A 1920x1080 video in an 800x450 container: the crop (100, 0, 200, 450)
      reads video pixels (240, 0, 480, 1080). */
  lemma LandscapeExample()
    ensures Fit(Size(800.0, 450.0), Size(1920.0, 1080.0)) == RenderGeometry(800.0, 450.0, 0.0, 0.0, 2.4, 2.4)
    ensures SourceRect(Cropper(100.0, 0.0, 200.0, 450.0, false, false), Size(800.0, 450.0), Size(1920.0, 1080.0))
         == Rect(240.0, 0.0, 480.0, 1080.0)
  {
    var g := Fit(Size(800.0, 450.0), Size(1920.0, 1080.0));
    assert g == RenderGeometry(800.0, 450.0, 0.0, 0.0, 2.4, 2.4);
    assert ToSource(Cropper(100.0, 0.0, 200.0, 450.0, false, false), g) == Rect(240.0, 0.0, 480.0, 1080.0);
  }

  /** A 1080x1920 portrait video in an 800x450 container is pillarboxed. */
  lemma PortraitExample()
    ensures var g := Fit(Size(800.0, 450.0), Size(1080.0, 1920.0));
      g.renderWidth == 253.125 && g.renderHeight == 450.0 && g.offsetX == 273.4375 && g.offsetY == 0.0
  {
  }
}

=== FILE: constants.dfy ===
/** The constants of the cropper: the aspect-ratio table, the default label,
    the initial cropper record and the preview frame rate. */
module Constants {
  import opened CropBox
  import RatioLabel

  /** Ratio label to width/height, written as exact fractions. */
  const AspectRatios: map<string, real> := map[
    "9:18" := 9.0 / 18.0,
    "9:16" := 9.0 / 16.0,
    "4:3" := 4.0 / 3.0,
    "3:4" := 3.0 / 4.0,
    "1:1" := 1.0,
    "4:5" := 4.0 / 5.0
  ]

  /** Frames per second of the preview tick. */
  const Fps: nat := 30

  const DefaultAspectRatio: string := "9:16"

  /** The cropper before any sizing: an empty box at the origin, no interaction. */
  const DefaultCropperState: Cropper := Cropper(0.0, 0.0, 0.0, 0.0, false, false)

  /** The ratio a label names, or None for a label outside the table. */
  function Lookup(tag: string): (r: Option<real>)
    ensures r.Some? <==> tag in AspectRatios
    ensures r.Some? ==> r.value > 0.0 && RatioLabel.Parse(tag) == Some(r.value)
  {
    TableIsExact();
    if tag in AspectRatios then Some(AspectRatios[tag]) else None
  }

  /** The labels of the table are exactly the six ratios the selector offers. */
  lemma TableKeys()
    ensures AspectRatios.Keys == {"9:18", "9:16", "4:3", "3:4", "1:1", "4:5"}
  {
  }

  /** Every label "a:b" of the table maps to exactly a/b, which is positive. */
  lemma TableIsExact()
    ensures forall k :: k in AspectRatios ==> AspectRatios[k] > 0.0
    ensures forall k :: k in AspectRatios ==> RatioLabel.Parse(k) == Some(AspectRatios[k])
  {
    forall k | k in AspectRatios
      ensures AspectRatios[k] > 0.0 && RatioLabel.Parse(k) == Some(AspectRatios[k])
    {
      EntryIsExact(k);
    }
  }

  /** One entry of the table: a positive value equal to its label's reading. */
  lemma EntryIsExact(k: string)
    requires k in AspectRatios
    ensures AspectRatios[k] > 0.0 && RatioLabel.Parse(k) == Some(AspectRatios[k])
  {
    TableKeys();
    if k == "9:18" {
      RatioLabel.ReadsNineEighteen(k);
    } else if k == "9:16" {
      RatioLabel.ReadsNineSixteen(k);
    } else if k == "4:3" {
      RatioLabel.ReadsFourThree(k);
    } else if k == "3:4" {
      RatioLabel.ReadsThreeFour(k);
    } else if k == "1:1" {
      RatioLabel.ReadsOneOne(k);
    } else {
      RatioLabel.ReadsFourFive(k);
    }
  }

  /** The default label is a key, so the first lookup is defined. */
  lemma DefaultIsKey()
    ensures DefaultAspectRatio in AspectRatios
    ensures AspectRatios[DefaultAspectRatio] == 9.0 / 16.0
  {
  }

  /** Milliseconds between two preview ticks. */
  function TickPeriodMs(): (p: real)
    ensures p * Fps as real == 1000.0
  {
    1000.0 / Fps as real
  }
}

=== FILE: crop_box.dfy ===
/** The crop rectangle record shared by both cropper iterations, and the small
    wrapper types used to model DOM references that may be absent. */
module CropBox {

  /** A DOM reference or an optional record field: absent (`None`) or present. */
  datatype Option<+T> = None | Some(value: T)

  /** A measured width and height, in CSS pixels. */
  datatype Size = Size(width: real, height: real)

  /** The two interaction flags a mouse-down can raise. */
  datatype Flag = Dragging | Resizing

  /** The crop rectangle in container coordinates plus the transient
      interaction flags. */
  datatype Cropper = Cropper(
    x: real,
    y: real,
    width: real,
    height: real,
    dragging: bool,
    resizing: bool)
  {
    /** The value of the flag named by `f`. */
    function Flagged(f: Flag): bool
    {
      match f
      case Dragging => dragging
      case Resizing => resizing
    }

    /** True when the two records have the same rectangle. */
    predicate SameGeometry(other: Cropper)
    {
      x == other.x && y == other.y && width == other.width && height == other.height
    }
  }

  /** The larger of two numbers, as `Math.max`. */
  function Max(a: real, b: real): real
  {
    if a >= b then a else b
  }

  /** The smaller of two numbers, as `Math.min`. */
  function Min(a: real, b: real): real
  {
    if a <= b then a else b
  }
}

=== FILE: ratio_label.dfy ===
/** An independent reading of an aspect-ratio label "a:b" as the number a/b.
    Both ratio tables are checked against it. */
module RatioLabel {
  import opened CropBox

  predicate IsDigit(c: char)
  {
    '0' <= c <= '9'
  }

  /** The decimal value of a string of digits, or None when `s` is empty or
      holds a non-digit. */
  function Digits(s: string): (r: Option<nat>)
    ensures r.Some? <==> |s| > 0 && forall i :: 0 <= i < |s| ==> IsDigit(s[i])
  {
    if |s| == 0 then None
    else if !IsDigit(s[|s| - 1]) then None
    else if |s| == 1 then Some(DigitValue(s[0]))
    else
      match Digits(s[..|s| - 1])
      case None => None
      case Some(v) => Some(v * 10 + DigitValue(s[|s| - 1]))
  }

  /** The ratio a/b named by a label "a:b" with a non-zero denominator. */
  function Parse(tag: string): (r: Option<real>)
    ensures r.Some? ==> ':' in tag
  {
    if ':' !in tag then None
    else
      var i := IndexOfColon(tag);
      match (Digits(tag[..i]), Digits(tag[i + 1..]))
      case (Some(a), Some(b)) => if b == 0 then None else Some(a as real / b as real)
      case _ => None
  }

  /** The position of the first ':' in `s`. */
  function IndexOfColon(s: string): (i: nat)
    requires ':' in s
    ensures i < |s| && s[i] == ':' && ':' !in s[..i]
  {
    if s[0] == ':' then 0
    else
      assert ':' in s[1..] by { assert s == [s[0]] + s[1..]; }
      var j := IndexOfColon(s[1..]);
      assert s[..j + 1] == [s[0]] + s[1..][..j];
      j + 1
  }

  /** The numeric value of a digit character. */
  function DigitValue(c: char): nat
    requires IsDigit(c)
  {
    (c as int - '0' as int) as nat
  }

  /** A two-digit string reads as tens and units. */
  lemma {:induction false} DigitsOfTwo(s: string)
    requires |s| == 2 && IsDigit(s[0]) && IsDigit(s[1])
    ensures Digits(s) == Some(10 * DigitValue(s[0]) + DigitValue(s[1]))
  {
    assert s[..1] == [s[0]];
  }

  /** A label built as a + ":" + b, with no colon in a, splits at that colon. */
  lemma {:induction false} ParseOfParts(a: string, b: string, x: nat, y: nat)
    requires ':' !in a && Digits(a) == Some(x) && Digits(b) == Some(y) && y > 0
    ensures Parse(a + ":" + b) == Some(x as real / y as real)
  {
    var s := a + ":" + b;
    assert s[|a|] == ':';
    var i := IndexOfColon(s);
    assert s[..i] == a;
    assert s[i + 1..] == b;
  }

  // The labels the ratio tables use, each read as a fraction. Each lemma takes
  // the label as a parameter pinned by its requires rather than stating the
  // literal: a caller holding a key `k` of a table can then use the fact about
  // `k` directly, where proving `Parse(k)` for an unknown key is too costly.

  lemma ReadsNineEighteen(k: string)
    requires k == "9:18"
    ensures Parse(k) == Some(9.0 / 18.0)
  {
    DigitsOfTwo("18");
    assert k == "9" + ":" + "18";
    ParseOfParts("9", "18", 9, 18);
  }

  lemma ReadsNineSixteen(k: string)
    requires k == "9:16"
    ensures Parse(k) == Some(9.0 / 16.0)
  {
    DigitsOfTwo("16");
    assert k == "9" + ":" + "16";
    ParseOfParts("9", "16", 9, 16);
  }

  lemma ReadsSixteenNine(k: string)
    requires k == "16:9"
    ensures Parse(k) == Some(16.0 / 9.0)
  {
    DigitsOfTwo("16");
    assert k == "16" + ":" + "9";
    ParseOfParts("16", "9", 16, 9);
  }

  lemma ReadsFourThree(k: string)
    requires k == "4:3"
    ensures Parse(k) == Some(4.0 / 3.0)
  {
    assert k == "4" + ":" + "3";
    ParseOfParts("4", "3", 4, 3);
  }

  lemma ReadsThreeFour(k: string)
    requires k == "3:4"
    ensures Parse(k) == Some(3.0 / 4.0)
  {
    assert k == "3" + ":" + "4";
    ParseOfParts("3", "4", 3, 4);
  }

  lemma ReadsOneOne(k: string)
    requires k == "1:1"
    ensures Parse(k) == Some(1.0 / 1.0)
  {
    assert k == "1" + ":" + "1";
    ParseOfParts("1", "1", 1, 1);
  }

  lemma ReadsFourFive(k: string)
    requires k == "4:5"
    ensures Parse(k) == Some(4.0 / 5.0)
  {
    assert k == "4" + ":" + "5";
    ParseOfParts("4", "5", 4, 5);
  }
}

=== FILE: use_cropper.dfy ===
/** The cropper hook of src/VideoPlayer/hooks/useCropper.js: every event
    handler as a pure transition on the cropper record. DOM measurements
    (clientWidth, clientHeight, getBoundingClientRect().left) are inputs, and
    an absent container or video reference is `None`. */
module UseCropper {
  import opened CropBox
  import opened Constants

  /** The hook's state: the cropper record and the selected ratio label. */
  datatype Hook = Hook(cropper: Cropper, aspectRatio: string)

  /** The hook's state on mount. */
  function InitialHook(): (h: Hook)
    ensures h.aspectRatio in AspectRatios
    ensures h.cropper.x == 0.0 && h.cropper.y == 0.0
    ensures h.cropper.width == 0.0 && h.cropper.height == 0.0
    ensures !h.cropper.dragging && !h.cropper.resizing
  {
    DefaultIsKey();
    Hook(DefaultCropperState, DefaultAspectRatio)
  }

  /** True when the sizing guard lets the update through: both references are
      present and the cropper has been started. */
  predicate Ready(container: Option<Size>, videoHeight: Option<real>, startCropper: bool)
  {
    container.Some? && videoHeight.Some? && startCropper
  }

  /** Sizes the box to the full height of the container (or of the video when
      that is taller), gives it the selected ratio and centres it horizontally
      at the top. `videoHeight` is the video element's client height. */
  function UpdateCropperDimensions(c: Cropper, container: Option<Size>, videoHeight: Option<real>,
                                   startCropper: bool, ratio: string): (r: Cropper)
    requires Ready(container, videoHeight, startCropper) ==> ratio in AspectRatios
    ensures !Ready(container, videoHeight, startCropper) ==> r == c
    ensures Ready(container, videoHeight, startCropper) ==>
      && r.height >= container.value.height && r.height >= videoHeight.value
      && (r.height == container.value.height || r.height == videoHeight.value)
      && r.width == r.height * AspectRatios[ratio]
      && r.x + r.width / 2.0 == container.value.width / 2.0
      && r.y == 0.0
      && (r.x >= 0.0 <==> r.width <= container.value.width)
      && r.dragging == c.dragging && r.resizing == c.resizing
  {
    if !Ready(container, videoHeight, startCropper) then c
    else
      var height := Max(container.value.height, videoHeight.value);
      var width := height * AspectRatios[ratio];
      c.(width := width, height := height, x := (container.value.width - width) / 2.0, y := 0.0)
  }

  /** Selecting a ratio label. Selecting the label already held changes no
      state, so the effect on `[aspectRatio, startCropper]` does not run.
      Selecting another label records it, and the effect then re-sizes the
      cropper for it when the cropper has been started. */
  function SetAspectRatio(h: Hook, ratio: string, container: Option<Size>, videoHeight: Option<real>,
                          startCropper: bool): (r: Hook)
    requires Ready(container, videoHeight, startCropper) && ratio != h.aspectRatio ==> ratio in AspectRatios
    ensures ratio == h.aspectRatio ==> r == h
    ensures r.aspectRatio == ratio
    ensures !Ready(container, videoHeight, startCropper) ==> r.cropper == h.cropper
    ensures Ready(container, videoHeight, startCropper) && ratio != h.aspectRatio ==>
      r.cropper == UpdateCropperDimensions(h.cropper, container, videoHeight, startCropper, ratio)
    ensures Ready(container, videoHeight, startCropper) && ratio != h.aspectRatio ==>
      && r.cropper.height == Max(container.value.height, videoHeight.value)
      && r.cropper.width == r.cropper.height * AspectRatios[ratio]
      && r.cropper.x + r.cropper.width / 2.0 == container.value.width / 2.0
      && r.cropper.y == 0.0
      && r.cropper.dragging == h.cropper.dragging && r.cropper.resizing == h.cropper.resizing
  {
    if ratio == h.aspectRatio then h
    else
      var cropper := if startCropper
        then UpdateCropperDimensions(h.cropper, container, videoHeight, startCropper, ratio)
        else h.cropper;
      Hook(cropper, ratio)
  }

  /** A pointer press on the overlay raises the named flag and nothing else. */
  function HandleMouseDown(c: Cropper, f: Flag): (r: Cropper)
    ensures r.Flagged(f)
    ensures forall g :: g != f ==> r.Flagged(g) == c.Flagged(g)
    ensures r.SameGeometry(c)
  {
    match f
    case Dragging => c.(dragging := true)
    case Resizing => c.(resizing := true)
  }

  /** Where a drag puts the box's left edge: the pointer's position minus
      half the box, limited above by the container's right edge and then
      below by 0. */
  function DragX(mouseX: real, width: real, containerWidth: real): (x: real)
    ensures x >= 0.0
    ensures width <= containerWidth ==> x <= containerWidth - width
    ensures width >= containerWidth ==> x == 0.0
    ensures 0.0 <= mouseX - width / 2.0 <= containerWidth - width ==> x + width / 2.0 == mouseX
  {
    Max(0.0, Min(mouseX - width / 2.0, containerWidth - width))
  }

  /** Pointer motion over the container. Only a drag moves the box, and only
      horizontally; the box is pinned to the top. */
  function HandleMouseMove(c: Cropper, clientX: real, containerLeft: real, containerWidth: real): (r: Cropper)
    ensures !c.dragging ==> r == c
    ensures c.dragging ==>
      && r.x == DragX(clientX - containerLeft, c.width, containerWidth)
      && r.y == 0.0
      && r.width == c.width && r.height == c.height
      && r.dragging == c.dragging && r.resizing == c.resizing
  {
    if !c.dragging then c
    else c.(x := DragX(clientX - containerLeft, c.width, containerWidth), y := 0.0)
  }

  /** Releasing the pointer ends every interaction and keeps the box. */
  function HandleMouseUp(c: Cropper): (r: Cropper)
    ensures !r.dragging && !r.resizing
    ensures r.SameGeometry(c)
  {
    c.(dragging := false, resizing := false)
  }

  /** The cropper after a sequence of pointer motions over one container. */
  function MoveAll(c: Cropper, clientXs: seq<real>, containerLeft: real, containerWidth: real): Cropper
    decreases |clientXs|
  {
    if |clientXs| == 0 then c
    else MoveAll(HandleMouseMove(c, clientXs[0], containerLeft, containerWidth), clientXs[1..],
                 containerLeft, containerWidth)
  }

  function Distance(a: real, b: real): real
  {
    if a >= b then a - b else b - a
  }

  /** The drag position is the point of the allowed range [0, containerWidth - width]
      nearest to the pointer-centred position, whenever that range is non-empty. */
  lemma DragIsNearest(mouseX: real, width: real, containerWidth: real, z: real)
    requires width <= containerWidth && 0.0 <= z <= containerWidth - width
    ensures Distance(DragX(mouseX, width, containerWidth), mouseX - width / 2.0)
         <= Distance(z, mouseX - width / 2.0)
  {
  }

  /** After any non-empty run of motions during a drag, with a box no wider than
      the container, the box lies inside the container and is pinned to the top;
      size and flags are untouched. */
  lemma {:induction false} DragsStayInside(c: Cropper, clientXs: seq<real>, containerLeft: real,
                                           containerWidth: real)
    requires c.dragging && c.width <= containerWidth && |clientXs| > 0
    ensures var r := MoveAll(c, clientXs, containerLeft, containerWidth);
      && 0.0 <= r.x <= containerWidth - r.width
      && r.y == 0.0
      && r.width == c.width && r.height == c.height
      && r.dragging && r.resizing == c.resizing
    decreases |clientXs|
  {
    var next := HandleMouseMove(c, clientXs[0], containerLeft, containerWidth);
    if |clientXs| > 1 {
      DragsStayInside(next, clientXs[1..], containerLeft, containerWidth);
    }
  }

  /** Motion without a drag, even while resizing, leaves the cropper as it was
      however many events arrive. */
  lemma {:induction false} MovesWithoutDragAreIgnored(c: Cropper, clientXs: seq<real>,
                                                      containerLeft: real, containerWidth: real)
    requires !c.dragging
    ensures MoveAll(c, clientXs, containerLeft, containerWidth) == c
    decreases |clientXs|
  {
    if |clientXs| > 0 {
      MovesWithoutDragAreIgnored(c, clientXs[1..], containerLeft, containerWidth);
    }
  }

  /** Re-sizing an already sized box for another ratio, with the same container
      and video, keeps its height, its top and its flags: only width and x
      change, and the widths stand in the ratio of the two labels. The result
      does not depend on the earlier ratio. */
  lemma RatioChangeKeepsHeight(c: Cropper, container: Size, videoHeight: real, r1: string, r2: string)
    requires r1 in AspectRatios && r2 in AspectRatios
    ensures var s1 := UpdateCropperDimensions(c, Some(container), Some(videoHeight), true, r1);
      var s2 := UpdateCropperDimensions(s1, Some(container), Some(videoHeight), true, r2);
      && s2.height == s1.height && s2.y == s1.y
      && s2 == s1.(x := s2.x, width := s2.width)
      && s2.width * AspectRatios[r1] == s1.width * AspectRatios[r2]
      && s2 == UpdateCropperDimensions(c, Some(container), Some(videoHeight), true, r2)
  {
  }

  /** Releasing twice is the same as releasing once, and a press followed by a
      release leaves the same state as the release alone. */
  lemma MouseUpIsIdempotent(c: Cropper, f: Flag)
    ensures HandleMouseUp(HandleMouseUp(c)) == HandleMouseUp(c)
    ensures HandleMouseUp(HandleMouseDown(c, f)) == HandleMouseUp(c)
  {
  }

  /** Switching the ratio of a box sized for the current label, with the same
      container and video, keeps its height, its top and its flags; the widths
      stand in the ratio of the two labels. Re-selecting the current label
      keeps the hook exactly. */
  lemma SelectingRatioKeepsHeight(c: Cropper, container: Size, videoHeight: real, current: string, ratio: string)
    requires current in AspectRatios && ratio in AspectRatios
    ensures var h := Hook(UpdateCropperDimensions(c, Some(container), Some(videoHeight), true, current), current);
      var r := SetAspectRatio(h, ratio, Some(container), Some(videoHeight), true);
      && r.cropper.height == h.cropper.height && r.cropper.y == h.cropper.y
      && r.cropper.dragging == h.cropper.dragging && r.cropper.resizing == h.cropper.resizing
      && r.cropper.width * AspectRatios[current] == h.cropper.width * AspectRatios[ratio]
      && (ratio == current ==> r == h)
  {
    if ratio != current {
      RatioChangeKeepsHeight(c, container, videoHeight, current, ratio);
    }
  }
}

=== FILE: video_verse.dfy ===
/** The cropper of src/components/VideoVerse.jsx, the iteration the app
    mounts. Its handlers spread the cropper value captured at render time
    (`{...cropper, ...}`) rather than the latest one; with pure transitions
    on that captured value this is the same record. The container's bounding
    rectangle is an input. */
module VideoVerse {
  import opened CropBox
  import RatioLabel
  import UseCropper

  /** Ratio label to width/height offered by the ratio selector. */
  const AspectRatios: map<string, real> := map[
    "1:1" := 1.0,
    "4:3" := 4.0 / 3.0,
    "16:9" := 16.0 / 9.0,
    "9:16" := 9.0 / 16.0
  ]

  const InitialAspectRatio: string := "16:9"

  /** The cropper on mount. */
  const InitialCropper: Cropper := Cropper(50.0, 50.0, 100.0, 180.0, false, false)

  /** The smallest width a resize asks for. */
  const MinResizeWidth: real := 50.0

  /** The cropper record carries no `aspectRatio` field, so reading it yields
      nothing and the resize height rule never sees a label. */
  const CropperAspectField: Option<string> := None

  /** The pointer events the overlay receives: a press on the box, a press on
      the resize handle in its corner, a motion over the container, a release. */
  datatype Event = PressBox | PressHandle | Move(clientX: real, clientY: real, bounds: Bounds) | Release

  /** The container's bounding client rectangle. */
  datatype Bounds = Bounds(left: real, top: real, width: real, height: real)

  /** What a ratio selection does: the new selection, and the height written
      to the video element's style when both references are present. */
  datatype RatioChange = RatioChange(selected: string, videoHeight: Option<real>)

  /** A pointer press raises the named flag and nothing else (the same
      transition as the hook's). */
  function HandleMouseDown(c: Cropper, f: Flag): (r: Cropper)
    ensures r.Flagged(f)
    ensures forall g :: g != f ==> r.Flagged(g) == c.Flagged(g)
    ensures r.SameGeometry(c)
  {
    match f
    case Dragging => c.(dragging := true)
    case Resizing => c.(resizing := true)
  }

  /** One axis of a drag: the pointer position minus half the box, raised to
      0 and then lowered to the container's far edge. The upper limit is
      applied last, so it always holds; the lower one holds exactly when the
      box fits. */
  function DragAxis(mouse: real, size: real, containerSize: real): (p: real)
    ensures p <= containerSize - size
    ensures p >= 0.0 <==> size <= containerSize
    ensures 0.0 <= mouse - size / 2.0 <= containerSize - size ==> p + size / 2.0 == mouse
    ensures size > containerSize ==> p == containerSize - size
  {
    Min(Max(0.0, mouse - size / 2.0), containerSize - size)
  }

  /** The update a drag proposes: the box follows the pointer on both axes. */
  function DragUpdate(c: Cropper, mouseX: real, mouseY: real, b: Bounds): (r: Cropper)
    ensures r.x == DragAxis(mouseX, c.width, b.width) && r.y == DragAxis(mouseY, c.height, b.height)
    ensures r.x <= b.width - c.width && r.y <= b.height - c.height
    ensures r.width == c.width && r.height == c.height
    ensures r.dragging == c.dragging && r.resizing == c.resizing
  {
    c.(x := DragAxis(mouseX, c.width, b.width), y := DragAxis(mouseY, c.height, b.height))
  }

  /** The height a resize gives a box of width `w` for a ratio label, where
      the label is known; any other label, or none, gives a square. */
  function ResizeHeight(aspect: Option<string>, w: real): (h: real)
    ensures aspect.None? ==> h == w
    ensures aspect.Some? && aspect.value in AspectRatios && aspect.value != "16:9" ==>
      h * AspectRatios[aspect.value] == w
  {
    if aspect == Some("1:1") then w
    else if aspect == Some("4:3") then (w / 4.0) * 3.0
    else if aspect == Some("9:16") then (w / 9.0) * 16.0
    else w
  }

  /** The width a resize asks for: the pointer's distance from the box's left
      edge, at least 50, and at most the room left in the container. */
  function ResizeWidth(mouseX: real, x: real, containerWidth: real): (w: real)
    ensures w <= containerWidth - x
    ensures containerWidth - x >= MinResizeWidth ==> w >= MinResizeWidth
    ensures MinResizeWidth <= mouseX - x <= containerWidth - x ==> x + w == mouseX
    ensures containerWidth - x < MinResizeWidth ==> w == containerWidth - x
    ensures mouseX - x <= MinResizeWidth <= containerWidth - x ==> w == MinResizeWidth
  {
    Min(Max(MinResizeWidth, mouseX - x), containerWidth - x)
  }

  /** The update a resize proposes: the box keeps its corner and grows to the
      pointer; since the record has no ratio field the box is square. */
  function ResizeUpdate(c: Cropper, mouseX: real, b: Bounds): (r: Cropper)
    ensures r.x == c.x && r.y == c.y
    ensures r.width == ResizeWidth(mouseX, c.x, b.width)
    ensures r.height == r.width
    ensures r.dragging == c.dragging && r.resizing == c.resizing
  {
    var w := ResizeWidth(mouseX, c.x, b.width);
    c.(width := w, height := ResizeHeight(CropperAspectField, w))
  }

  /** Pointer motion over the container. A drag and a resize each propose a
      record built from the same pre-move cropper, and the later proposal
      replaces the earlier: with both flags raised only the resize survives. */
  function HandleMouseMove(c: Cropper, clientX: real, clientY: real, b: Bounds): (r: Cropper)
    ensures !c.dragging && !c.resizing ==> r == c
    ensures c.dragging && !c.resizing ==> r == DragUpdate(c, clientX - b.left, clientY - b.top, b)
    ensures c.resizing ==> r == ResizeUpdate(c, clientX - b.left, b)
    ensures r.dragging == c.dragging && r.resizing == c.resizing
  {
    if !c.dragging && !c.resizing then c
    else
      var mouseX := clientX - b.left;
      var mouseY := clientY - b.top;
      var afterDrag := if c.dragging then DragUpdate(c, mouseX, mouseY, b) else c;
      if c.resizing then ResizeUpdate(c, mouseX, b) else afterDrag
  }

  /** Releasing the pointer ends every interaction and keeps the box (the
      same transition as the hook's). */
  function HandleMouseUp(c: Cropper): (r: Cropper)
    ensures !r.dragging && !r.resizing
    ensures r.SameGeometry(c)
  {
    c.(dragging := false, resizing := false)
  }

  /** Selecting a ratio: the selection always changes; when the video and the
      container are both present the video is given the height at which the
      container's width has the selected ratio. */
  function HandleAspectRatioChange(selected: string, videoPresent: bool, containerWidth: Option<real>)
    : (r: RatioChange)
    requires videoPresent && containerWidth.Some? ==> selected in AspectRatios
    ensures r.selected == selected
    ensures r.videoHeight.Some? <==> videoPresent && containerWidth.Some?
    ensures r.videoHeight.Some? ==>
      && r.videoHeight.value * AspectRatios[selected] == containerWidth.value
      && (r.videoHeight.value > 0.0 <==> containerWidth.value > 0.0)
  {
    RatiosPositive();
    if videoPresent && containerWidth.Some? then
      RatioChange(selected, Some(containerWidth.value / AspectRatios[selected]))
    else
      RatioChange(selected, None)
  }

  /** The selector's labels. */
  lemma TableKeys()
    ensures AspectRatios.Keys == {"1:1", "4:3", "16:9", "9:16"}
  {
  }

  // Positivity alone, kept apart from TableIsExact so that the ratio-change
  // handler's proof does not pay for parsing the labels.
  lemma RatiosPositive()
    ensures forall k :: k in AspectRatios ==> AspectRatios[k] > 0.0
  {
    TableKeys();
  }

  /** Every label "a:b" of the selector maps to exactly a/b, which is positive. */
  lemma TableIsExact()
    ensures forall k :: k in AspectRatios ==> AspectRatios[k] > 0.0
    ensures forall k :: k in AspectRatios ==> RatioLabel.Parse(k) == Some(AspectRatios[k])
  {
    forall k | k in AspectRatios
      ensures AspectRatios[k] > 0.0 && RatioLabel.Parse(k) == Some(AspectRatios[k])
    {
      TableKeys();
      if k == "1:1" {
        RatioLabel.ReadsOneOne(k);
      } else if k == "4:3" {
        RatioLabel.ReadsFourThree(k);
      } else if k == "16:9" {
        RatioLabel.ReadsSixteenNine(k);
      } else {
        RatioLabel.ReadsNineSixteen(k);
      }
    }
  }

  /** The resize height rule keeps the table's ratio for the labels it knows,
      but turns "16:9" into a square. */
  lemma ResizeHeightAgainstTable(w: real)
    requires w > 0.0
    ensures forall k :: k in AspectRatios && k != "16:9" ==> ResizeHeight(Some(k), w) * AspectRatios[k] == w
    ensures ResizeHeight(Some("16:9"), w) == w
    ensures ResizeHeight(Some("16:9"), w) * AspectRatios["16:9"] != w
  {
  }

  /** With both flags raised the drag's move is lost: the box keeps its
      position and only its size changes. */
  lemma ResizeWinsOverDrag(c: Cropper, clientX: real, clientY: real, b: Bounds)
    requires c.dragging && c.resizing
    ensures var r := HandleMouseMove(c, clientX, clientY, b);
      r.x == c.x && r.y == c.y && r.height == r.width
  {
  }

  /** A drag keeps a box that fits the container inside it on both axes; a
      box wider than the container is pushed past its left edge. */
  lemma DragStaysInsideWhenFits(c: Cropper, clientX: real, clientY: real, b: Bounds)
    requires c.dragging && !c.resizing
    ensures var r := HandleMouseMove(c, clientX, clientY, b);
      && (c.width <= b.width ==> 0.0 <= r.x <= b.width - r.width)
      && (c.height <= b.height ==> 0.0 <= r.y <= b.height - r.height)
      && (c.width > b.width ==> r.x < 0.0)
  {
  }

  /** A press on the resize handle. The handle sits inside the box, so the
      press reaches the handle's handler and then, bubbling, the box's. Both
      spread the same captured record; `updates` lists the two batched
      updates in bubbling order, and the last one applied is the state, so
      the press starts a drag and does not raise `resizing`. */
  function PressResizeHandle(c: Cropper): (r: Cropper)
    ensures r.dragging
    ensures r.resizing == c.resizing
    ensures r.SameGeometry(c)
  {
    var updates := [HandleMouseDown(c, Resizing), HandleMouseDown(c, Dragging)];
    updates[|updates| - 1]
  }

  /** One pointer event on the mounted overlay. */
  function Step(c: Cropper, e: Event): Cropper
  {
    match e
    case PressBox => HandleMouseDown(c, Dragging)
    case PressHandle => PressResizeHandle(c)
    case Move(clientX, clientY, b) => HandleMouseMove(c, clientX, clientY, b)
    case Release => HandleMouseUp(c)
  }

  /** The cropper after a run of pointer events. */
  function Run(c: Cropper, events: seq<Event>): Cropper
    decreases |events|
  {
    if |events| == 0 then c else Run(Step(c, events[0]), events[1..])
  }

  /** No run of pointer events raises `resizing` on a cropper that does not
      have it, so from the initial record the resize branch of the move
      handler is never taken and every move is a drag or nothing. */
  lemma {:induction false} NeverResizes(c: Cropper, events: seq<Event>)
    requires !c.resizing
    ensures !Run(c, events).resizing
    decreases |events|
  {
    if |events| > 0 {
      NeverResizes(Step(c, events[0]), events[1..]);
    }
  }

  /** The selector starts on a label of its table, and the initial cropper
      has no interaction under way, so it never resizes. */
  lemma InitialStateNeverResizes(events: seq<Event>)
    ensures InitialAspectRatio in AspectRatios
    ensures !InitialCropper.dragging && !InitialCropper.resizing
    ensures !Run(InitialCropper, events).resizing
  {
    NeverResizes(InitialCropper, events);
  }

  /** For a box that fits its container the two iterations' drags agree, even
      though they nest `min` and `max` in opposite orders; so the mounted drag
      is also the nearest allowed point to the pointer-centred position. */
  lemma DragsAgreeWhenFits(mouse: real, size: real, containerSize: real)
    requires size <= containerSize
    ensures DragAxis(mouse, size, containerSize) == UseCropper.DragX(mouse, size, containerSize)
  {
  }
}
